=== FILE: README.md ===
# mcmober — a Dafny model of the mod synchroniser's core

mcmober keeps a local Minecraft mods directory (`.minecraft/mods`) in step
with a server. It fetches the server's `/mods` HTML listing and extracts one
remote file name per table row. It then indexes the local files by package
name, after stripping any `[tag]` prefix. Every remote file that the index does
not hold under exactly that name is downloaded, and stored under the last
segment of its URL.

This project models the pure logic of that pipeline and proves properties of
it. The network, the file system and the terminal are inputs or are left out.

- `go_strings.dfy` (module `GoStrings`) models the parts of Go's `strings`
  package that the program uses. `Index` finds the first occurrence of a
  needle, and an empty needle is found at 0. `LastIndex` finds the last
  occurrence. `Split` takes a non-empty separator and always yields at least
  one piece. `Join` undoes `Split`.
- `identity.dfy` (module `Identity`) models `between`, `getPkgName`,
  `getStdName`, `makeDirURL`, `makeFileURL` and the file-name step of
  `downloadFile`.
- `listing.dfy` (module `Listing`) models the parse of the listing page in
  `getList`. A failed request is the `NetError` variant of `Response`.
- `reconcile.dfy` (module `Reconcile`) models `checkList`. The local
  directory is a sequence of `FileInfo` records, and each record carries
  whether renaming that file to its standard name succeeds. `FsError`
  stands for a failure to create or list the directory. The two loops are
  left folds (`BuildIndex`, `Pending`), and the methods `IndexDirectory`,
  `FilterRemote` and `CheckListLoop` run the same loops as the program does.
  The files may come in any order. `ioutil.ReadDir` sorts them by name, so
  when several local files share a package, the index keeps, among the files
  the loop indexes, the one whose on-disk name sorts last.

Go strings are byte strings. They are modelled as `seq<char>`. Every marker
the program searches for is ASCII, so a character stands for a byte.

## Model

| member | source | states |
|---|---|---|
| GoStrings.IndexSpec | mcmober.go:34 | `strings.Index` is -1 exactly when the needle does not occur; otherwise it is the first position where the needle occurs |
| GoStrings.LastIndexSpec | mcmober.go:162 | `strings.LastIndex` is -1 exactly when the needle does not occur; otherwise it is the last position where the needle occurs |
| GoStrings.SplitSpec | mcmober.go:88 | `strings.Split` yields pieces free of the separator that join back to the input, and it yields a single piece exactly when the separator does not occur |
| GoStrings.SplitJoin | mcmober.go:88 | splitting the join of separator-free pieces on a self-unbordered separator such as `</tr>` gives back exactly those pieces |
| Identity.BetweenSpec | mcmober.go:33-44 | the result is "" when the start marker is missing or no end marker follows it; otherwise it is the text from right after the first start marker up to the first end marker after it |
| Identity.BetweenExcludesEnd | mcmober.go:39-43 | the extracted text never contains the end marker |
| Identity.BetweenEnclosed | mcmober.go:33-44 | `starting + token + ending` yields exactly `token` when the token is free of the end marker |
| Identity.PkgNameSpec | mcmober.go:47-53 | the package name is a prefix of the name and contains no `-`; it is followed by a `-` unless it is the whole name, and it is the whole name when there is no `-` |
| Identity.PkgNameIdempotent | mcmober.go:47-53 | taking the package name twice gives the same result as taking it once |
| Identity.PkgNameOfVersioned | mcmober.go:47-53 | `base-version` has package name `base` for any `-`-free base |
| Identity.StdNameSpec | mcmober.go:56-62 | the standard name is a suffix of the name; it is the whole name when there is no `]`, and otherwise it starts right after the first `]` |
| Identity.StdNameStripsTag | mcmober.go:56-62 | `[tag]rest` normalises to `rest` |
| Identity.StdNameOfBracket | mcmober.go:56-62 | the name `]` normalises to "" |
| Identity.StdNameIdempotentIff | mcmober.go:56-62 | normalising twice gives the same result as normalising once exactly when the normalised name has no `]` |
| Identity.FileNameOfURL | mcmober.go:162-166 | the file name is a `/`-free suffix of the URL; it is the whole URL when there is no `/`, and otherwise it follows the last `/` |
| Identity.FileNameUnderDirectory | mcmober.go:162-166 | a directory prefix ending in `/` never changes the file part of a name |
| Identity.FileNameOfFileURL | mcmober.go:20-30 | the file name of `makeFileURL(host, file)` is the file name of `file`, and it is `file` itself when `file` has no `/` |
| Identity.DownloadPath | mcmober.go:162-168 | the write path is `.minecraft/mods`, a `/`, and a `/`-free name, which is empty when the URL ends in `/` |
| Identity.DownloadPathOfEntry | mcmober.go:17-30 | a `/`-free remote entry fetched by its file URL targets `.minecraft/mods/<entry>`; for the empty entry that is the directory itself |
| Identity.DownloadPathOfEmptyEntry | mcmober.go:162-168 | the empty entry left by a failed `<tt>` extraction is fetched from the listing URL and targets `.minecraft/mods/`, the directory itself |
| Listing.DataRowsSpec | mcmober.go:90-94 | the data-row positions are exactly the rows with at least three `</td>` pieces, in increasing order |
| Listing.ParseRowsSpec | mcmober.go:90-97 | there is one name per data row, in row order; the k-th name is the `<tt>` text of the first cell of the k-th data row, which is "" when the extraction fails |
| Listing.ParseListing | mcmober.go:66-71 | a body without `</tr>` parses to the empty list, because the slice panics and the panic is recovered; otherwise there are at most as many names as pieces less the first and the last |
| Listing.ParseListingRows | mcmober.go:88-97 | a page with rows parses to the entries of its data rows, in order, taken from the pieces between the first and the last `</tr>` |
| Listing.GetList | mcmober.go:65-99 | a failed request or a body without rows gives the empty list; otherwise the result is bounded by the number of rows |
| Listing.ParseLaidOutPage | mcmober.go:88-89 | in a page made of a preamble, rows and a trailer, the preamble and the trailer are never read as rows |
| Listing.TwoGoodRowsOneBad | mcmober.go:90-97 | a malformed row between two well-formed ones is skipped, and the two entries keep their order |
| Listing.EntryOfTaggedCell | mcmober.go:95 | a first cell `<tt>name</tt>` yields `name` |
| Reconcile.IndexStepFrame | mcmober.go:120-138 | one iteration keeps every index value a non-empty standard name filed under its own package, leaves every other package's entry as it was, and leaves an indexed file's standard name under its package |
| Reconcile.BuildIndex | mcmober.go:119-139 | every index value is a non-empty standard name, filed under its own package name |
| Reconcile.BuildIndexKeys | mcmober.go:119-139 | the keys of the index are exactly the packages of the indexed files |
| Reconcile.BuildIndexLastWins | mcmober.go:137-138 | each key holds the standard name of the last indexed file of that package in listing order |
| Reconcile.LastForUnique | mcmober.go:137-138 | at most one file is the last indexed file of a package, so the file that wins the overwrite is unique |
| Reconcile.PendingSpec | mcmober.go:141-148 | the pending list is an order-preserving subsequence of the remote list; it holds exactly the entries that are not up to date, and it keeps every stale occurrence |
| Reconcile.PendingExcludesIff | mcmober.go:142-145 | a remote entry is left out exactly when the index maps its package name to that very entry |
| Reconcile.CheckList | mcmober.go:103-151 | a directory failure leaves nothing pending; pending entries are remote entries, and every entry not pending has an indexed local file of that standard name |
| Reconcile.OtherVersionStaysPending | mcmober.go:141-148 | a local copy of another version of the same package leaves the remote entry pending |
| Reconcile.EmptyEntryPending | mcmober.go:126-128 | an empty remote entry, from a failed `<tt>` extraction, is always pending, because no indexed value is empty |
| Reconcile.TaggedCopyUpToDate | mcmober.go:124-138 | in any listing, a `[tag]`-prefixed local copy that renames cleanly satisfies the remote entry it names, provided no later file is indexed under the same package (a later one would overwrite it at :138) |
| Reconcile.UnrenamedCopyPending | mcmober.go:129-135 | in any listing, a tagged local copy whose rename fails is not indexed, and the entry it names stays pending unless another indexed file has exactly that standard name |
| Reconcile.IndexDirectory | mcmober.go:119-139 | the in-place directory loop computes the fold `BuildIndex` |
| Reconcile.FilterRemote | mcmober.go:141-148 | the appending remote loop computes `Pending` |
| Reconcile.CheckListLoop | mcmober.go:103-151 | the loop form of `checkList` agrees with `CheckList` |

## Left out

- HTTP requests, response bodies and reads are inputs here. `Response` stands for the body or a failure, and `DirRead` stands for the directory listing or a failure. Both failures panic and are recovered into an empty result, which is what the model returns.
- `os.MkdirAll` and `os.Rename` are not performed. Each directory entry carries a `renameOk` flag that gives the outcome of the rename. The renamed file's new location on disk is not modelled.
- The streaming download in `downloadFile` (mcmober.go:170-208) is left out: the GET request, the file creation, the copy loop, `Content-Length` and the progress output. Only the choice of the target name and path is modelled.
- `main`, the configuration file, the termbox pause and all printing (mcmober.go:210-254) are left out, because they are I/O and user interaction.
- `Split` is modelled only for a non-empty separator, because the program always splits on `</tr>` or `</td>`.
- Go strings are byte strings. The model uses `seq<char>`. All markers are ASCII, so positions agree byte for byte for ASCII names.
- `MakeDirURL` and `MakeFileURL` have no contract of their own. `FileNameOfFileURL` and `DownloadPathOfEntry` state what their URLs mean for the download.
- Listing.GetList: the function's own contract states only the empty cases and a bound. The entry-by-entry characterisation is `ParseListingRows`, which is stated about `ParseListing`, the function `GetList` returns for a body.
- When the `<tt>` extraction fails, the code still appends the empty string (mcmober.go:95-96). The model keeps it, and `EmptyEntryPending` shows that such an entry is always pending.
- The error results of `getList` and `checkList` are not modelled: `GetList` and `CheckList` return only the list. When the request or the read fails, `getList` returns a nil list and a non-nil error (mcmober.go:75-84). When the slice at mcmober.go:89 panics on a body without `</tr>`, it returns a nil list and a nil error, because the `err :=` in the deferred closure (mcmober.go:67) shadows the named result. When creating or listing the directory fails, `checkList` returns a nil list and a non-nil error (mcmober.go:111-118). The only caller discards both errors (mcmober.go:238-239), so the empty list is everything the program acts on.
- What happens when the download target is the directory itself is not modelled. This is the case for the empty entry, see `DownloadPathOfEmptyEntry`. `os.Create` fails on that path (mcmober.go:181-183), the panic is recovered, and nothing is written.

=== FILE: go_strings.dfy ===
/**
 Go's `strings.Index`, `strings.LastIndex` and `strings.Split`, specified once
 and reused by the rest of the model. A `string` here stands for a Go string,
 that is a sequence of bytes; every marker the program searches for is ASCII.
 */
module GoStrings {

  /** `sub` occurs in `s` starting at position `i`. */
  predicate OccursAt(s: string, sub: string, i: int)
  {
    0 <= i && i + |sub| <= |s| && s[i..i + |sub|] == sub
  }

  /** `sub` occurs somewhere in `s`. */
  ghost predicate Contains(s: string, sub: string)
  {
    exists i :: OccursAt(s, sub, i)
  }

  /** `r` is the first occurrence of `sub` in `s` at or after position `k`. */
  ghost predicate FirstFrom(s: string, sub: string, k: int, r: int)
  {
    k <= r && OccursAt(s, sub, r) && forall j :: k <= j < r ==> !OccursAt(s, sub, j)
  }

  /** No occurrence of `sub` in `s` starts at or after position `k`. */
  ghost predicate NoneFrom(s: string, sub: string, k: int)
  {
    forall j :: k <= j ==> !OccursAt(s, sub, j)
  }

  /** The first occurrence of `sub` at or after `k`, or -1 when there is none. */
  function IndexFrom(s: string, sub: string, k: nat): (r: int)
    ensures r == -1 || (k <= r && r + |sub| <= |s|)
    decreases |s| - k
  {
    if k + |sub| > |s| then -1
    else if s[k..k + |sub|] == sub then k
    else IndexFrom(s, sub, k + 1)
  }

  /** `IndexFrom` finds the first occurrence at or after `k`, and -1 means
      there is none. */
  lemma {:induction false} IndexFromSpec(s: string, sub: string, k: nat)
    ensures IndexFrom(s, sub, k) == -1 ==> NoneFrom(s, sub, k)
    ensures IndexFrom(s, sub, k) != -1 ==> FirstFrom(s, sub, k, IndexFrom(s, sub, k))
    decreases |s| - k
  {
    if k + |sub| <= |s| && s[k..k + |sub|] != sub {
      IndexFromSpec(s, sub, k + 1);
    }
  }

  /** Go's `strings.Index`: the first occurrence of `sub` in `s`, or -1.
      An empty `sub` occurs at 0. */
  function Index(s: string, sub: string): (r: int)
    ensures r == -1 || (0 <= r && r + |sub| <= |s|)
  {
    IndexFrom(s, sub, 0)
  }

  /** `Index` is -1 exactly when `sub` does not occur, and otherwise the
      position of its first occurrence. */
  lemma IndexSpec(s: string, sub: string)
    ensures Index(s, sub) == -1 <==> !Contains(s, sub)
    ensures Index(s, sub) != -1 ==> FirstFrom(s, sub, 0, Index(s, sub))
  {
    IndexFromSpec(s, sub, 0);
  }

  /** The last occurrence of `sub` that starts at or before `k`, or -1. */
  function LastIndexUpTo(s: string, sub: string, k: int): (r: int)
    ensures r == -1 || (0 <= r <= k && r + |sub| <= |s|)
    decreases k + 1
  {
    if k < 0 then -1
    else if OccursAt(s, sub, k) then k
    else LastIndexUpTo(s, sub, k - 1)
  }

  /** `LastIndexUpTo` finds the last occurrence at or before `k`. */
  lemma {:induction false} LastIndexUpToSpec(s: string, sub: string, k: int)
    ensures LastIndexUpTo(s, sub, k) != -1 ==> OccursAt(s, sub, LastIndexUpTo(s, sub, k))
    ensures forall j :: LastIndexUpTo(s, sub, k) < j <= k ==> !OccursAt(s, sub, j)
    decreases k + 1
  {
    if k >= 0 && !OccursAt(s, sub, k) {
      LastIndexUpToSpec(s, sub, k - 1);
    }
  }

  /** Go's `strings.LastIndex`: the last occurrence of `sub` in `s`, or -1. */
  function LastIndex(s: string, sub: string): (r: int)
    ensures r == -1 || (0 <= r && r + |sub| <= |s|)
  {
    LastIndexUpTo(s, sub, |s| - |sub|)
  }

  /** `LastIndex` is -1 exactly when `sub` does not occur, and otherwise the
      position of its last occurrence. */
  lemma LastIndexSpec(s: string, sub: string)
    ensures LastIndex(s, sub) == -1 <==> !Contains(s, sub)
    ensures LastIndex(s, sub) != -1 ==>
              OccursAt(s, sub, LastIndex(s, sub))
              && forall j :: LastIndex(s, sub) < j ==> !OccursAt(s, sub, j)
  {
    LastIndexUpToSpec(s, sub, |s| - |sub|);
  }

  /** Occurrences inside a slice are the occurrences of the whole string that
      lie inside the slice, shifted. */
  lemma OccursInSlice(s: string, sub: string, a: nat, b: nat, j: int)
    requires a <= b <= |s|
    ensures OccursAt(s[a..b], sub, j) <==> 0 <= j && j + |sub| <= b - a && OccursAt(s, sub, a + j)
  {
    if 0 <= j && j + |sub| <= b - a {
      var x, y := s[a..b][j..j + |sub|], s[a + j..a + j + |sub|];
      assert |x| == |y|;
      assert forall k :: 0 <= k < |x| ==> x[k] == y[k];
      assert x == y;
    }
  }

  /** Searching the suffix `s[p..]` finds the first occurrence in `s` at or after `p`. */
  lemma IndexOfSuffix(s: string, sub: string, p: nat)
    requires p <= |s|
    ensures Index(s[p..], sub) == -1 ==> NoneFrom(s, sub, p)
    ensures Index(s[p..], sub) != -1 ==> FirstFrom(s, sub, p, p + Index(s[p..], sub))
  {
    var e := Index(s[p..], sub);
    IndexSpec(s[p..], sub);
    if e == -1 {
      assert !Contains(s[p..], sub);
      forall j | p <= j ensures !OccursAt(s, sub, j) {
        OccursInSlice(s, sub, p, |s|, j - p);
        assert !OccursAt(s[p..], sub, j - p);
      }
    } else {
      OccursInSlice(s, sub, p, |s|, e);
      forall j | p <= j < p + e ensures !OccursAt(s, sub, j) {
        OccursInSlice(s, sub, p, |s|, j - p);
        assert !OccursAt(s[p..], sub, j - p);
      }
    }
  }

  /** A one-character pattern occurs exactly where that character is. */
  lemma OccursAtChar(s: string, c: char, i: int)
    ensures OccursAt(s, [c], i) <==> 0 <= i < |s| && s[i] == c
  {
    if 0 <= i < |s| {
      assert s[i..i + 1] == [s[i]];
    }
  }

  /** `Index` of a one-character pattern finds the first position of that character. */
  lemma IndexOfChar(s: string, c: char)
    ensures Index(s, [c]) == -1 <==> c !in s
    ensures Index(s, [c]) != -1 ==>
              0 <= Index(s, [c]) < |s| && s[Index(s, [c])] == c && c !in s[..Index(s, [c])]
  {
    var r := Index(s, [c]);
    IndexSpec(s, [c]);
    if c in s {
      var i :| 0 <= i < |s| && s[i] == c;
      OccursAtChar(s, c, i);
    }
    if r != -1 {
      OccursAtChar(s, c, r);
      forall j | 0 <= j < r ensures s[j] != c {
        OccursAtChar(s, c, j);
      }
    }
  }

  /** `LastIndex` of a one-character pattern finds the last position of that character. */
  lemma LastIndexOfChar(s: string, c: char)
    ensures LastIndex(s, [c]) == -1 <==> c !in s
    ensures LastIndex(s, [c]) != -1 ==>
              0 <= LastIndex(s, [c]) < |s| && s[LastIndex(s, [c])] == c
              && c !in s[LastIndex(s, [c]) + 1..]
  {
    var r := LastIndex(s, [c]);
    LastIndexSpec(s, [c]);
    if c in s {
      var i :| 0 <= i < |s| && s[i] == c;
      OccursAtChar(s, c, i);
    }
    if r != -1 {
      OccursAtChar(s, c, r);
      forall j | r < j < |s| ensures s[j] != c {
        OccursAtChar(s, c, j);
        assert !OccursAt(s, [c], j);
      }
    }
  }

  /** Go's `strings.Join`: the parts with `sep` between consecutive ones. */
  function Join(parts: seq<string>, sep: string): (s: string)
  {
    if |parts| == 0 then ""
    else if |parts| == 1 then parts[0]
    else parts[0] + sep + Join(parts[1..], sep)
  }

  lemma JoinCons(head: string, tail: seq<string>, sep: string)
    requires |tail| >= 1
    ensures Join([head] + tail, sep) == head + sep + Join(tail, sep)
  {
    assert ([head] + tail)[1..] == tail;
  }

  /** Cutting `s` at the first occurrence `i` of `sep` and splitting the rest
      keeps every property `Split` promises. */
  lemma SplitStep(s: string, sep: string, i: int, tail: seq<string>)
    requires |sep| > 0 && i != -1 && i == Index(s, sep)
    requires |tail| >= 1 && Join(tail, sep) == s[i + |sep|..]
    requires forall k :: 0 <= k < |tail| ==> !Contains(tail[k], sep)
    ensures var parts := [s[..i]] + tail;
            && |parts| >= 2
            && (forall k :: 0 <= k < |parts| ==> !Contains(parts[k], sep))
            && Join(parts, sep) == s
            && Contains(s, sep)
  {
    IndexSpec(s, sep);
    var head := s[..i];
    forall j ensures !OccursAt(head, sep, j) {
      OccursInSlice(s, sep, 0, i, j);
    }
    JoinCons(head, tail, sep);
    assert s == head + s[i..i + |sep|] + s[i + |sep|..];
    var parts := [head] + tail;
    forall k | 0 <= k < |parts| ensures !Contains(parts[k], sep) {
      if k > 0 {
        assert parts[k] == tail[k - 1];
      }
    }
  }

  /** Go's `strings.Split` for a non-empty separator: the pieces of `s`
      between occurrences of `sep`, scanning left to right. */
  function Split(s: string, sep: string): (parts: seq<string>)
    requires |sep| > 0
    ensures |parts| >= 1
    decreases |s|
  {
    var i := Index(s, sep);
    if i == -1 then [s]
    else [s[..i]] + Split(s[i + |sep|..], sep)
  }

  /** The pieces `Split` returns are free of the separator, joining them back
      with it gives `s` again, and there is exactly one piece precisely when
      the separator does not occur. */
  lemma {:induction false} SplitSpec(s: string, sep: string)
    requires |sep| > 0
    ensures forall k :: 0 <= k < |Split(s, sep)| ==> !Contains(Split(s, sep)[k], sep)
    ensures Join(Split(s, sep), sep) == s
    ensures |Split(s, sep)| == 1 <==> !Contains(s, sep)
    decreases |s|
  {
    var i := Index(s, sep);
    IndexSpec(s, sep);
    if i != -1 {
      var rest := s[i + |sep|..];
      SplitSpec(rest, sep);
      SplitStep(s, sep, i, Split(rest, sep));
    }
  }

  /** No non-empty proper prefix of `sep` is also a suffix of it, so two
      occurrences of `sep` can never overlap. */
  predicate Unbordered(sep: string)
  {
    forall n :: 0 < n < |sep| ==> sep[..n] != sep[|sep| - n..]
  }

  /** In `p + sep + rest`, with `p` free of an unbordered `sep`, the first
      occurrence of `sep` is the one written after `p`. */
  lemma FirstAtBoundary(p: string, sep: string, rest: string)
    requires |sep| > 0 && Unbordered(sep) && !Contains(p, sep)
    ensures Index(p + sep + rest, sep) == |p|
  {
    var s := p + sep + rest;
    IndexSpec(s, sep);
    assert s[|p|..|p| + |sep|] == sep;
    assert OccursAt(s, sep, |p|);
    forall j | 0 <= j < |p| ensures !OccursAt(s, sep, j) {
      NoOccurrenceBeforeBoundary(p, sep, rest, j);
    }
  }

  /** An occurrence of an unbordered `sep` cannot start inside a `sep`-free
      `p` in `p + sep + rest`. */
  lemma NoOccurrenceBeforeBoundary(p: string, sep: string, rest: string, j: int)
    requires |sep| > 0 && Unbordered(sep) && !Contains(p, sep) && 0 <= j < |p|
    ensures !OccursAt(p + sep + rest, sep, j)
  {
    var s := p + sep + rest;
    if j + |sep| <= |p| {
      assert s[j..j + |sep|] == p[j..j + |sep|];
      assert !OccursAt(p, sep, j);
    } else {
      var n := j + |sep| - |p|;
      var w := s[j..j + |sep|];
      assert w[|sep| - n..] == s[|p|..|p| + n] == sep[..n];
      assert sep[..n] != sep[|sep| - n..];
    }
  }

  /** Splitting a join on an unbordered separator gives the parts back, as
      long as no part contains the separator. */
  lemma {:induction false} SplitJoin(parts: seq<string>, sep: string)
    requires |sep| > 0 && Unbordered(sep) && |parts| >= 1
    requires forall i :: 0 <= i < |parts| ==> !Contains(parts[i], sep)
    ensures Split(Join(parts, sep), sep) == parts
    decreases |parts|
  {
    if |parts| == 1 {
      assert Join(parts, sep) == parts[0];
      IndexSpec(parts[0], sep);
    } else {
      var rest := Join(parts[1..], sep);
      var s := parts[0] + sep + rest;
      assert Join(parts, sep) == s;
      FirstAtBoundary(parts[0], sep, rest);
      SplitSpec(s, sep);
      assert s[..|parts[0]|] == parts[0];
      assert s[|parts[0]| + |sep|..] == rest;
      SplitJoin(parts[1..], sep);
      assert [parts[0]] + parts[1..] == parts;
    }
  }
}

=== FILE: identity.dfy ===
/**
 The identity helpers of mcmober: cutting a token out of an HTML cell, the
 package name (the part before the first `-`), the standard name (the part
 after the first `]`, which strips a `[tag]` prefix), and the URLs and the
 local file name of a download.
 */
module Identity {
  import opened GoStrings

  /** `between(str, starting, ending)`: the text after the first `starting`
      up to the first `ending` that follows it, or "" when either is missing. */
  function Between(str: string, starting: string, ending: string): (r: string)
    ensures |r| <= |str|
  {
    var s := Index(str, starting);
    if s == -1 then ""
    else
      var p := s + |starting|;
      var e := Index(str[p..], ending);
      if e == -1 then ""
      else str[p..p + e]
  }

  /** `Between` is "" when the start marker is missing or no end marker
      follows it; otherwise it is the slice of `str` that starts right after
      the first start marker and runs up to the first end marker after it. */
  lemma BetweenSpec(str: string, starting: string, ending: string)
    ensures !Contains(str, starting) ==> Between(str, starting, ending) == ""
    ensures (Contains(str, starting) && NoneFrom(str, ending, Index(str, starting) + |starting|))
              ==> Between(str, starting, ending) == ""
    ensures (Contains(str, starting) && !NoneFrom(str, ending, Index(str, starting) + |starting|))
              ==> var p, r := Index(str, starting) + |starting|, Between(str, starting, ending);
                  && p + |r| <= |str|
                  && r == str[p..p + |r|]
                  && FirstFrom(str, ending, p, p + |r|)
  {
    var s := Index(str, starting);
    IndexSpec(str, starting);
    if s == -1 {
      assert Between(str, starting, ending) == "";
    } else {
      var p := s + |starting|;
      IndexOfSuffix(str, ending, p);
      var e := Index(str[p..], ending);
      assert Between(str, starting, ending) == if e == -1 then "" else str[p..p + e];
    }
  }

  /** The extracted text never contains the (non-empty) end marker. */
  lemma BetweenExcludesEnd(str: string, starting: string, ending: string)
    requires |ending| > 0
    ensures !Contains(Between(str, starting, ending), ending)
  {
    var r := Between(str, starting, ending);
    BetweenSpec(str, starting, ending);
    IndexSpec(str, starting);
    if r != "" {
      var p := Index(str, starting) + |starting|;
      forall j ensures !OccursAt(r, ending, j) {
        OccursInSlice(str, ending, p, p + |r|, j);
      }
    }
  }

  /** The text between two markers that enclose a marker-free token is that token. */
  lemma BetweenEnclosed(token: string, starting: string, ending: string)
    requires |ending| > 0 && Unbordered(ending)
    requires !Contains(token, ending)
    ensures Between(starting + token + ending, starting, ending) == token
  {
    var str := starting + token + ending;
    assert str[..|starting|] == starting;
    assert OccursAt(str, starting, 0);
    IndexSpec(str, starting);
    var p := |starting|;
    assert str[p..] == token + ending;
    FirstAtBoundary(token, ending, []);
    assert token + ending + [] == str[p..];
    IndexOfSuffix(str, ending, p);
    BetweenSpec(str, starting, ending);
    assert str[p..p + |token|] == token;
  }

  /** `getPkgName`: the prefix before the first `-`, or the whole name. */
  function PkgName(name: string): (r: string)
    ensures |r| <= |name|
  {
    var i := Index(name, "-");
    if i == -1 then name else name[..i]
  }

  /** The package name is the longest prefix without a `-`: a prefix of the
      name, free of `-`, followed by a `-` unless it is the whole name. */
  lemma PkgNameSpec(name: string)
    ensures PkgName(name) <= name
    ensures '-' !in PkgName(name)
    ensures |PkgName(name)| < |name| ==> name[|PkgName(name)|] == '-'
    ensures '-' !in name ==> PkgName(name) == name
  {
    IndexOfChar(name, '-');
  }

  /** Taking the package name twice changes nothing. */
  lemma PkgNameIdempotent(name: string)
    ensures PkgName(PkgName(name)) == PkgName(name)
  {
    PkgNameSpec(name);
    PkgNameSpec(PkgName(name));
  }

  /** The package name is determined by any extension of the name that starts
      with a `-`: versions never leak into it. */
  lemma {:induction false} PkgNameOfVersioned(base: string, version: string)
    requires '-' !in base
    ensures PkgName(base + "-" + version) == base
  {
    var name := base + "-" + version;
    PkgNameSpec(name);
    assert name[|base|] == '-';
    assert name[..|base|] == base;
    assert forall k :: 0 <= k < |base| ==> name[k] == base[k];
  }

  /** `getStdName`: the suffix after the first `]`, or the whole name. */
  function StdName(name: string): (r: string)
    ensures |r| <= |name|
  {
    var i := Index(name, "]");
    if i == -1 then name else name[i + 1..]
  }

  /** The standard name is the suffix after the first `]`: a suffix of the
      name, the whole name when there is no `]`, and otherwise preceded by a
      `]` that is the first one. */
  lemma StdNameSpec(name: string)
    ensures StdName(name) == name[|name| - |StdName(name)|..]
    ensures ']' !in name ==> StdName(name) == name
    ensures ']' in name ==>
              && |StdName(name)| < |name|
              && name[|name| - |StdName(name)| - 1] == ']'
              && ']' !in name[..|name| - |StdName(name)| - 1]
  {
    IndexOfChar(name, ']');
  }

  /** A bracketed tag is stripped: `[tag]rest` becomes `rest`. */
  lemma {:induction false} StdNameStripsTag(tag: string, rest: string)
    requires ']' !in tag
    ensures StdName("[" + tag + "]" + rest) == rest
  {
    var name := "[" + tag + "]" + rest;
    StdNameSpec(name);
    var k := |tag| + 1;
    assert name[0] == '[';
    assert forall j :: 1 <= j <= |tag| ==> name[j] == tag[j - 1];
    assert name[k] == ']';
    assert name[k + 1..] == rest;
  }

  /** The lone tag terminator normalizes to the empty name, which the
      reconciler skips. */
  lemma StdNameOfBracket()
    ensures StdName("]") == ""
  {
    StdNameSpec("]");
  }

  /** Normalizing twice changes nothing exactly when the normalized name has no
      further `]`; a name with two `]` loses another segment on every pass. */
  lemma StdNameIdempotentIff(name: string)
    ensures StdName(StdName(name)) == StdName(name) <==> ']' !in StdName(name)
  {
    var r := StdName(name);
    StdNameSpec(name);
    StdNameSpec(r);
    if ']' in r {
      assert |StdName(r)| < |r|;
    }
  }

  /** `makeDirURL`: the listing page of the server. */
  function MakeDirURL(host: string): (url: string)
  {
    "http://" + host + "/mods"
  }

  /** `makeFileURL`: the URL of one remote file. */
  function MakeFileURL(host: string, file: string): (url: string)
  {
    MakeDirURL(host) + "/" + file
  }

  /** The file-name step of `downloadFile`: the text after the last `/`,
      or the whole URL when it has none. */
  function FileNameOfURL(url: string): (r: string)
    ensures '/' !in r
    ensures |r| <= |url| && r == url[|url| - |r|..]
    ensures '/' !in url ==> r == url
    ensures '/' in url ==> |r| < |url| && url[|url| - |r| - 1] == '/'
  {
    LastIndexOfChar(url, '/');
    var i := LastIndex(url, "/");
    if i == -1 then url else url[i + 1..]
  }

  /** A slash-free suffix of `s` that is all of `s` or follows a `/` is unique. */
  lemma LastSegmentUnique(s: string, x: string, y: string)
    requires |x| <= |s| && x == s[|s| - |x|..] && '/' !in x
    requires |y| <= |s| && y == s[|s| - |y|..] && '/' !in y
    requires |x| == |s| || s[|s| - |x| - 1] == '/'
    requires |y| == |s| || s[|s| - |y| - 1] == '/'
    ensures x == y
  {
    assert forall k :: 0 <= k < |x| ==> s[|s| - |x| + k] == x[k] != '/';
    assert forall k :: 0 <= k < |y| ==> s[|s| - |y| + k] == y[k] != '/';
  }

  /** Putting a directory ending in `/` in front of a name does not change
      its file part. */
  lemma FileNameUnderDirectory(dir: string, file: string)
    requires |dir| > 0 && dir[|dir| - 1] == '/'
    ensures FileNameOfURL(dir + file) == FileNameOfURL(file)
  {
    var url := dir + file;
    var x := FileNameOfURL(url);
    var y := FileNameOfURL(file);
    assert url[|dir| - 1] == '/';
    assert url[|url| - |file|..] == file;
    assert url[|url| - |y|..] == y;
    if |y| == |file| {
      assert url[|url| - |y| - 1] == '/';
    } else {
      assert url[|url| - |y| - 1] == file[|file| - |y| - 1];
    }
    LastSegmentUnique(url, x, y);
  }

  /** The name a download is stored under is the file part of the name it was
      requested by; for a name without `/` it is the name itself. */
  lemma FileNameOfFileURL(host: string, file: string)
    ensures FileNameOfURL(MakeFileURL(host, file)) == FileNameOfURL(file)
    ensures '/' !in file ==> FileNameOfURL(MakeFileURL(host, file)) == file
  {
    var dir := MakeDirURL(host) + "/";
    assert MakeFileURL(host, file) == dir + file;
    FileNameUnderDirectory(dir, file);
  }

  /** The local mods directory every download is written into. */
  const LocalPath: string := ".minecraft/mods"

  /** The path `downloadFile` writes a URL's body to: the mods directory, a
      `/`, and the file part of the URL, which is empty when the URL ends in
      `/`. */
  function DownloadPath(url: string): (path: string)
    ensures |LocalPath| < |path| && path[..|LocalPath| + 1] == LocalPath + "/"
    ensures '/' !in path[|LocalPath| + 1..]
  {
    LocalPath + "/" + FileNameOfURL(url)
  }

  /** Fetching a remote entry by its file URL targets the path of the entry's
      own name in the mods directory, where the next reconciliation finds it. */
  lemma DownloadPathOfEntry(host: string, entry: string)
    requires '/' !in entry
    ensures DownloadPath(MakeFileURL(host, entry)) == LocalPath + "/" + entry
  {
    FileNameOfFileURL(host, entry);
  }

  /** An entry whose `<tt>` extraction failed is fetched from the listing
      URL itself, and its target is the mods directory, not a file in it. */
  lemma DownloadPathOfEmptyEntry(host: string)
    ensures DownloadPath(MakeFileURL(host, "")) == LocalPath + "/"
  {
    DownloadPathOfEntry(host, "");
  }
}

=== FILE: listing.dfy ===
/**
 The listing parser of `getList`: the body of the server's `/mods` page is cut
 into table rows on `</tr>`, the first and the last piece are dropped, every
 remaining row with at least three `</td>` pieces contributes the text between
 `<tt>` and `</tt>` of its first cell. The HTTP request is an input here.
 */
module Listing {
  import opened GoStrings
  import opened Identity

  const RowEnd: string := "</tr>"
  const CellEnd: string := "</td>"
  const NameOpen: string := "<tt>"
  const NameClose: string := "</tt>"

  /** What the HTTP request of `getList` produced: the page body, or a
      network or read failure (which panics and is recovered). */
  datatype Response = Body(text: string) | NetError

  /** A row that carries a remote entry: it has at least three cell pieces. */
  predicate IsDataRow(row: string)
  {
    |Split(row, CellEnd)| >= 3
  }

  /** The remote entry of a data row: the `<tt>` text of its first cell. */
  function EntryOf(row: string): (name: string)
    requires IsDataRow(row)
  {
    Between(Split(row, CellEnd)[0], NameOpen, NameClose)
  }

  /** The positions of the data rows, in increasing order. */
  ghost function DataRows(rows: seq<string>): (idx: seq<nat>)
    decreases |rows|
  {
    if |rows| == 0 then []
    else
      var n := |rows| - 1;
      DataRows(rows[..n]) + if IsDataRow(rows[n]) then [n] else []
  }

  /** `DataRows` enumerates exactly the positions of the data rows, in
      increasing order. */
  lemma {:induction false} DataRowsSpec(rows: seq<string>)
    ensures forall k :: 0 <= k < |DataRows(rows)| ==>
              DataRows(rows)[k] < |rows| && IsDataRow(rows[DataRows(rows)[k]])
    ensures forall k, l :: 0 <= k < l < |DataRows(rows)| ==> DataRows(rows)[k] < DataRows(rows)[l]
    ensures forall i :: 0 <= i < |rows| && IsDataRow(rows[i]) ==> i in DataRows(rows)
    decreases |rows|
  {
    if |rows| > 0 {
      var n := |rows| - 1;
      var front := rows[..n];
      DataRowsSpec(front);
      var prefix, idx := DataRows(front), DataRows(rows);
      assert idx == prefix + if IsDataRow(rows[n]) then [n] else [];
      assert forall i :: 0 <= i < n ==> front[i] == rows[i];
      assert forall i {:trigger i in prefix} :: i in prefix ==> i in idx;
    }
  }

  /** The loop of `getList` over the kept rows: rows with fewer than three cell
      pieces are skipped, every other row appends its entry, in row order.
      An entry whose `<tt>` extraction fails is appended as "". */
  function ParseRows(rows: seq<string>): (names: seq<string>)
    ensures |names| <= |rows|
    decreases |rows|
  {
    if |rows| == 0 then []
    else
      var n := |rows| - 1;
      ParseRows(rows[..n]) + if IsDataRow(rows[n]) then [EntryOf(rows[n])] else []
  }

  /** There is one name per data row: the `k`-th name is the entry of the
      `k`-th data row. */
  lemma {:induction false} ParseRowsSpec(rows: seq<string>)
    ensures |ParseRows(rows)| == |DataRows(rows)|
    ensures forall k :: 0 <= k < |ParseRows(rows)| ==>
              && DataRows(rows)[k] < |rows|
              && IsDataRow(rows[DataRows(rows)[k]])
              && ParseRows(rows)[k] == EntryOf(rows[DataRows(rows)[k]])
    decreases |rows|
  {
    DataRowsSpec(rows);
    if |rows| > 0 {
      var n := |rows| - 1;
      var front := rows[..n];
      ParseRowsSpec(front);
      DataRowsSpec(front);
      assert forall k :: 0 <= k < |DataRows(front)| ==> front[DataRows(front)[k]] == rows[DataRows(front)[k]];
    }
  }

  /** Appending a row appends its entry when it is a data row. */
  lemma ParseRowsAppend(rows: seq<string>, row: string)
    ensures ParseRows(rows + [row]) == ParseRows(rows) + if IsDataRow(row) then [EntryOf(row)] else []
  {
    assert (rows + [row])[..|rows|] == rows;
  }

  /** The pieces of the body that `getList` treats as rows: all `</tr>` pieces
      but the first and the last. */
  function Rows(body: string): (rows: seq<string>)
    requires Contains(body, RowEnd)
  {
    var pieces := Split(body, RowEnd);
    SplitSpec(body, RowEnd);
    pieces[1..|pieces| - 1]
  }

  /** The parse of a page body. Without any `</tr>` the split has one piece,
      the slice `[1:0]` panics and the recovered result is empty; otherwise
      there are never more names than `</tr>` pieces less the two dropped. */
  function ParseListing(body: string): (names: seq<string>)
    ensures !Contains(body, RowEnd) ==> names == []
    ensures Contains(body, RowEnd) ==> |names| <= |Split(body, RowEnd)| - 2
  {
    var pieces := Split(body, RowEnd);
    SplitSpec(body, RowEnd);
    if |pieces| < 2 then []
    else ParseRows(pieces[1..|pieces| - 1])
  }

  /** A page with rows parses to one name per data row, in row order: the
      `k`-th name is the `<tt>` text of the `k`-th row with three cells. */
  lemma ParseListingRows(body: string)
    requires Contains(body, RowEnd)
    ensures |ParseListing(body)| == |DataRows(Rows(body))|
    ensures forall k :: 0 <= k < |ParseListing(body)| ==>
              && DataRows(Rows(body))[k] < |Rows(body)|
              && IsDataRow(Rows(body)[DataRows(Rows(body))[k]])
              && ParseListing(body)[k] == EntryOf(Rows(body)[DataRows(Rows(body))[k]])
  {
    SplitSpec(body, RowEnd);
    ParseRowsSpec(Rows(body));
  }

  /** `getList`: a failed request and a body without rows both give the
      empty list, and a page never yields more names than it has rows. */
  function GetList(response: Response): (names: seq<string>)
    ensures response.NetError? ==> names == []
    ensures response.Body? && !Contains(response.text, RowEnd) ==> names == []
    ensures response.Body? && Contains(response.text, RowEnd) ==>
              |names| <= |Split(response.text, RowEnd)| - 2
  {
    match response
    case NetError => []
    case Body(text) => ParseListing(text)
  }

  lemma RowEndUnbordered()
    ensures Unbordered(RowEnd)
  {
    assert forall n :: 0 < n < |RowEnd| ==> RowEnd[..n][0] == '<' && RowEnd[|RowEnd| - n..][0] != '<';
  }

  lemma NameCloseUnbordered()
    ensures Unbordered(NameClose)
  {
    assert forall n :: 0 < n < |NameClose| ==> NameClose[..n][0] == '<' && NameClose[|NameClose| - n..][0] != '<';
  }

  /** A page laid out as a preamble, rows and a trailer, each free of `</tr>`,
      parses to the entries of its data rows: the preamble and the trailer
      are never read as rows. */
  lemma ParseLaidOutPage(preamble: string, rows: seq<string>, trailer: string)
    requires !Contains(preamble, RowEnd) && !Contains(trailer, RowEnd)
    requires forall i :: 0 <= i < |rows| ==> !Contains(rows[i], RowEnd)
    ensures ParseListing(Join([preamble] + rows + [trailer], RowEnd)) == ParseRows(rows)
  {
    var pieces := [preamble] + rows + [trailer];
    LaidOutPiecesFree(preamble, rows, trailer);
    RowEndUnbordered();
    SplitJoin(pieces, RowEnd);
    assert pieces[1..|pieces| - 1] == rows;
  }

  /** No piece of a laid-out page contains `</tr>`. */
  lemma LaidOutPiecesFree(preamble: string, rows: seq<string>, trailer: string)
    requires !Contains(preamble, RowEnd) && !Contains(trailer, RowEnd)
    requires forall i :: 0 <= i < |rows| ==> !Contains(rows[i], RowEnd)
    ensures forall i :: 0 <= i < |[preamble] + rows + [trailer]| ==>
              !Contains(([preamble] + rows + [trailer])[i], RowEnd)
  {
    var pieces := [preamble] + rows + [trailer];
    assert pieces[0] == preamble;
    assert pieces[|pieces| - 1] == trailer;
    assert forall i :: 0 < i < |pieces| - 1 ==> pieces[i] == rows[i - 1];
  }

  /** Two well-formed rows around a malformed one give exactly the two
      entries, in row order. */
  lemma TwoGoodRowsOneBad(preamble: string, good1: string, bad: string, good2: string, trailer: string)
    requires !Contains(preamble, RowEnd) && !Contains(trailer, RowEnd)
    requires !Contains(good1, RowEnd) && !Contains(bad, RowEnd) && !Contains(good2, RowEnd)
    requires IsDataRow(good1) && !IsDataRow(bad) && IsDataRow(good2)
    ensures ParseListing(Join([preamble, good1, bad, good2, trailer], RowEnd))
            == [EntryOf(good1), EntryOf(good2)]
  {
    var rows := [good1, bad, good2];
    assert [preamble] + rows + [trailer] == [preamble, good1, bad, good2, trailer];
    ParseLaidOutPage(preamble, rows, trailer);
    ParseGoodBadGood(good1, bad, good2);
  }

  lemma ParseGoodBadGood(good1: string, bad: string, good2: string)
    requires IsDataRow(good1) && !IsDataRow(bad) && IsDataRow(good2)
    ensures ParseRows([good1, bad, good2]) == [EntryOf(good1), EntryOf(good2)]
  {
    ParseRowsAppend([], good1);
    ParseRowsAppend([good1], bad);
    ParseRowsAppend([good1, bad], good2);
    assert [] + [good1] == [good1];
    assert [good1] + [bad] == [good1, bad];
    assert [good1, bad] + [good2] == [good1, bad, good2];
  }

  /** A first cell of the form `<tt>name</tt>` yields exactly `name`. */
  lemma EntryOfTaggedCell(name: string, row: string)
    requires IsDataRow(row) && !Contains(name, NameClose)
    requires Split(row, CellEnd)[0] == NameOpen + name + NameClose
    ensures EntryOf(row) == name
  {
    NameCloseUnbordered();
    BetweenEnclosed(name, NameOpen, NameClose);
  }
}

=== FILE: reconcile.dfy ===
/**
 The reconciler of `checkList`: the local directory is folded into an index
 from package name to standard file name, and the remote list is filtered
 down to the entries the index does not hold under exactly that name. The
 directory listing is an input: one record per immediate entry, carrying
 whether renaming it to its standard name succeeds.
 */
module Reconcile {
  import opened GoStrings
  import opened Identity

  /** One entry of the local mods directory as `ioutil.ReadDir` lists it,
      with the outcome `os.Rename` would have if it were asked to rename the
      file to its standard name. */
  datatype FileInfo = FileInfo(name: string, isDir: bool, renameOk: bool)

  /** What creating and listing the local directory produced. A failure panics
      and is recovered, which leaves the pending list empty. */
  datatype DirRead = Entries(files: seq<FileInfo>) | FsError

  /** A file the loop of `checkList` records in the index: a plain file with a
      non-empty standard name that either already carries that name or was
      renamed to it. */
  predicate Indexed(f: FileInfo)
  {
    !f.isDir && StdName(f.name) != "" && (StdName(f.name) == f.name || f.renameOk)
  }

  /** The index key of a local file: the package of its standard name. */
  function Key(f: FileInfo): (key: string)
  {
    PkgName(StdName(f.name))
  }

  /** The invariant of `mmap`: every value is a non-empty standard name and
      is filed under its own package name. */
  predicate WellFormed(index: map<string, string>)
  {
    forall key :: key in index ==> index[key] != "" && key == PkgName(index[key])
  }

  /** One iteration of the directory loop of `checkList`: an indexed file
      files its standard name under its package, any other file is skipped.
      The ensures only unfold the body for the fold lemmas; what a step
      guarantees is stated by `IndexStepFrame`. */
  function IndexStep(index: map<string, string>, f: FileInfo): (r: map<string, string>)
    ensures Indexed(f) ==> r == index[Key(f) := StdName(f.name)]
    ensures !Indexed(f) ==> r == index
  {
    if f.isDir then index
    else
      var std := StdName(f.name);
      if std == "" then index
      else if std != f.name && !f.renameOk then index
      else index[PkgName(std) := std]
  }

  /** A step keeps the index well formed and touches no key but the file's
      own package, where an indexed file leaves its standard name. */
  lemma IndexStepFrame(index: map<string, string>, f: FileInfo)
    ensures WellFormed(index) ==> WellFormed(IndexStep(index, f))
    ensures forall key :: key != Key(f) ==>
              (key in IndexStep(index, f) <==> key in index)
              && (key in IndexStep(index, f) ==> IndexStep(index, f)[key] == index[key])
    ensures Indexed(f) ==> Key(f) in IndexStep(index, f) && IndexStep(index, f)[Key(f)] == StdName(f.name)
  {
    var r := IndexStep(index, f);
    if Indexed(f) {
      var std := StdName(f.name);
      assert r == index[Key(f) := std];
      assert std != "" && Key(f) == PkgName(std);
    } else {
      assert r == index;
    }
  }

  /** The index `mmap` after the directory loop: a left fold of `IndexStep`.
      Every value is a non-empty standard name filed under its own package. */
  function BuildIndex(files: seq<FileInfo>): (index: map<string, string>)
    ensures WellFormed(index)
    decreases |files|
  {
    if |files| == 0 then map[]
    else IndexStep(BuildIndex(files[..|files| - 1]), files[|files| - 1])
  }

  /** `i` is the last file in listing order that is indexed under `key`. */
  ghost predicate LastFor(files: seq<FileInfo>, key: string, i: int)
  {
    && 0 <= i < |files|
    && Indexed(files[i])
    && Key(files[i]) == key
    && forall j :: i < j < |files| ==> !(Indexed(files[j]) && Key(files[j]) == key)
  }

  /** A file indexed under `key` in a prefix is still the last one once a
      file of another key, or an unindexed file, is appended. */
  lemma LastForExtend(files: seq<FileInfo>, key: string, i: int)
    requires |files| > 0
    requires LastFor(files[..|files| - 1], key, i)
    requires !(Indexed(files[|files| - 1]) && Key(files[|files| - 1]) == key)
    ensures LastFor(files, key, i)
  {
    var n := |files| - 1;
    var front := files[..n];
    forall j | i < j < |files| ensures !(Indexed(files[j]) && Key(files[j]) == key) {
      if j < n {
        assert front[j] == files[j];
        assert !(Indexed(front[j]) && Key(front[j]) == key);
      }
    }
  }

  /** Every indexed file leaves its package as a key of the index. */
  lemma {:induction false} BuildIndexComplete(files: seq<FileInfo>)
    ensures forall i :: 0 <= i < |files| && Indexed(files[i]) ==> Key(files[i]) in BuildIndex(files)
    decreases |files|
  {
    if |files| > 0 {
      var n := |files| - 1;
      var front, last := files[..n], files[n];
      BuildIndexComplete(front);
      var before, after := BuildIndex(front), BuildIndex(files);
      assert after == IndexStep(before, last);
      forall i | 0 <= i < n && Indexed(files[i]) ensures Key(files[i]) in after {
        assert files[i] == front[i];
      }
    }
  }

  /** Every key of the index is the package of some indexed file. */
  lemma {:induction false} BuildIndexSound(files: seq<FileInfo>)
    ensures forall key :: key in BuildIndex(files) ==>
              exists i :: 0 <= i < |files| && Indexed(files[i]) && Key(files[i]) == key
    decreases |files|
  {
    if |files| > 0 {
      var n := |files| - 1;
      var front, last := files[..n], files[n];
      BuildIndexSound(front);
      var before, after := BuildIndex(front), BuildIndex(files);
      assert after == IndexStep(before, last);
      forall key | key in after
        ensures exists i :: 0 <= i < |files| && Indexed(files[i]) && Key(files[i]) == key
      {
        if key in before {
          var i :| 0 <= i < n && Indexed(front[i]) && Key(front[i]) == key;
          assert files[i] == front[i];
        } else {
          assert Indexed(files[n]) && Key(files[n]) == key;
        }
      }
    }
  }

  /** The keys of the index are exactly the packages of the indexed files. */
  lemma BuildIndexKeys(files: seq<FileInfo>)
    ensures forall key :: key in BuildIndex(files) <==>
              exists i :: 0 <= i < |files| && Indexed(files[i]) && Key(files[i]) == key
  {
    BuildIndexComplete(files);
    BuildIndexSound(files);
  }

  /** Each key holds the standard name of the last indexed file of that
      package in listing order: later files overwrite earlier ones. */
  lemma {:induction false} BuildIndexLastWins(files: seq<FileInfo>)
    ensures forall key :: key in BuildIndex(files) ==>
              exists i :: LastFor(files, key, i) && BuildIndex(files)[key] == StdName(files[i].name)
    decreases |files|
  {
    if |files| > 0 {
      var n := |files| - 1;
      var front, last := files[..n], files[n];
      BuildIndexLastWins(front);
      var before, after := BuildIndex(front), BuildIndex(files);
      assert after == IndexStep(before, last);
      forall key | key in after
        ensures exists i :: LastFor(files, key, i) && after[key] == StdName(files[i].name)
      {
        if Indexed(last) && Key(last) == key {
          assert LastFor(files, key, n);
        } else {
          var i :| LastFor(front, key, i) && before[key] == StdName(front[i].name);
          LastForExtend(files, key, i);
        }
      }
    }
  }

  /** A remote entry is up to date when the index holds exactly it under its
      package name. */
  predicate UpToDate(index: map<string, string>, entry: string)
  {
    PkgName(entry) in index && index[PkgName(entry)] == entry
  }

  /** The remote loop of `checkList`: an entry is appended when its package is
      not indexed or is indexed under a different file name. */
  function Pending(index: map<string, string>, remote: seq<string>): (pending: seq<string>)
    ensures |pending| <= |remote|
    decreases |remote|
  {
    if |remote| == 0 then []
    else
      var n := |remote| - 1;
      var entry := remote[n];
      var pkgName := PkgName(entry);
      Pending(index, remote[..n])
        + if pkgName !in index || index[pkgName] != entry then [entry] else []
  }

  /** `a` is `b` with some elements left out, in the same order. */
  ghost predicate IsSubsequence(a: seq<string>, b: seq<string>)
    decreases |b|
  {
    if |a| == 0 then true
    else if |b| == 0 then false
    else if a[|a| - 1] == b[|b| - 1] then IsSubsequence(a[..|a| - 1], b[..|b| - 1])
    else IsSubsequence(a, b[..|b| - 1])
  }

  /** The number of remote entries that are not up to date. */
  ghost function StaleCount(index: map<string, string>, remote: seq<string>): (n: nat)
    decreases |remote|
  {
    if |remote| == 0 then 0
    else StaleCount(index, remote[..|remote| - 1]) + if UpToDate(index, remote[|remote| - 1]) then 0 else 1
  }

  /** The pending list is an order-preserving subsequence of the remote list,
      it holds exactly the remote entries that are not up to date, and every
      stale occurrence is kept. */
  lemma {:induction false} PendingSpec(index: map<string, string>, remote: seq<string>)
    ensures IsSubsequence(Pending(index, remote), remote)
    ensures forall x :: x in Pending(index, remote) <==> x in remote && !UpToDate(index, x)
    ensures |Pending(index, remote)| == StaleCount(index, remote)
    decreases |remote|
  {
    if |remote| > 0 {
      var n := |remote| - 1;
      var front := remote[..n];
      PendingSpec(index, front);
      var p, q := Pending(index, front), Pending(index, remote);
      assert remote == front + [remote[n]];
      if UpToDate(index, remote[n]) {
        assert q == p;
        SubsequenceExtend(p, front, remote[n]);
      } else {
        assert q == p + [remote[n]];
        assert q[..|q| - 1] == p;
      }
    }
  }

  /** A subsequence stays one when the longer sequence grows at the end. */
  lemma {:induction false} SubsequenceExtend(a: seq<string>, b: seq<string>, x: string)
    requires IsSubsequence(a, b)
    ensures IsSubsequence(a, b + [x])
    decreases |b|, 1
  {
    var b' := b + [x];
    assert b'[..|b'| - 1] == b;
    if |a| > 0 && a[|a| - 1] == x {
      SubsequenceDropLast(a, b);
    }
  }

  /** Dropping the last element of a subsequence keeps it a subsequence. */
  lemma {:induction false} SubsequenceDropLast(a: seq<string>, b: seq<string>)
    requires |a| > 0 && IsSubsequence(a, b)
    ensures IsSubsequence(a[..|a| - 1], b)
    decreases |b|, 0
  {
    var n := |b| - 1;
    if a[|a| - 1] == b[n] {
      SubsequenceExtend(a[..|a| - 1], b[..n], b[n]);
    } else {
      SubsequenceDropLast(a, b[..n]);
      SubsequenceExtend(a[..|a| - 1], b[..n], b[n]);
    }
    assert b[..n] + [b[n]] == b;
  }

  /** `checkList`: nothing is pending when the directory cannot be created or
      listed; otherwise the pending list filters the remote list against the
      index of the local files. */
  function CheckList(dir: DirRead, remote: seq<string>): (pending: seq<string>)
    ensures dir.FsError? ==> pending == []
    ensures forall x :: x in pending ==> x in remote
    ensures dir.Entries? ==> forall x :: x in remote && x !in pending ==>
              exists i :: 0 <= i < |dir.files| && Indexed(dir.files[i]) && StdName(dir.files[i].name) == x
  {
    match dir
    case FsError => []
    case Entries(files) =>
      var index := BuildIndex(files);
      PendingSpec(index, remote);
      BuildIndexLastWins(files);
      assert forall x :: x in remote && !UpToDate(index, x) ==> x in Pending(index, remote);
      Pending(index, remote)
  }

  /** A remote entry is left out of the pending list exactly when the index
      maps its package name to that very entry. */
  lemma PendingExcludesIff(index: map<string, string>, remote: seq<string>, entry: string)
    requires entry in remote
    ensures entry !in Pending(index, remote) <==> PkgName(entry) in index && index[PkgName(entry)] == entry
  {
    PendingSpec(index, remote);
  }

  /** A local file of the same package under another version leaves the
      remote entry pending; the stale file is neither used nor removed. */
  lemma OtherVersionStaysPending(files: seq<FileInfo>, remote: seq<string>, entry: string)
    requires entry in remote
    requires PkgName(entry) in BuildIndex(files) && BuildIndex(files)[PkgName(entry)] != entry
    ensures entry in CheckList(Entries(files), remote)
  {
    PendingSpec(BuildIndex(files), remote);
  }

  /** An entry whose `<tt>` extraction failed is always pending: no indexed
      value is empty. */
  lemma EmptyEntryPending(files: seq<FileInfo>, remote: seq<string>)
    requires "" in remote
    ensures "" in CheckList(Entries(files), remote)
  {
    PendingSpec(BuildIndex(files), remote);
  }

  /** The directory loop of `checkList`, written as the program writes it
      with a map updated in place. */
  method IndexDirectory(files: seq<FileInfo>) returns (index: map<string, string>)
    ensures index == BuildIndex(files)
  {
    index := map[];
    var i := 0;
    while i < |files|
      invariant 0 <= i <= |files|
      invariant index == BuildIndex(files[..i])
    {
      var file := files[i];
      assert files[..i + 1][..i] == files[..i];
      if !file.isDir {
        var std := StdName(file.name);
        if std != "" {
          if std == file.name || file.renameOk {
            index := index[PkgName(std) := std];
          }
        }
      }
      i := i + 1;
    }
    assert files[..i] == files;
  }

  /** The remote loop of `checkList`, appending to the output list. */
  method FilterRemote(index: map<string, string>, remote: seq<string>) returns (pending: seq<string>)
    ensures pending == Pending(index, remote)
  {
    pending := [];
    var j := 0;
    while j < |remote|
      invariant 0 <= j <= |remote|
      invariant pending == Pending(index, remote[..j])
    {
      var entry := remote[j];
      assert remote[..j + 1][..j] == remote[..j];
      var pkgName := PkgName(entry);
      if pkgName !in index || index[pkgName] != entry {
        pending := pending + [entry];
      }
      j := j + 1;
    }
    assert remote[..j] == remote;
  }

  /** `checkList` as a method over the two loops. */
  method CheckListLoop(dir: DirRead, remote: seq<string>) returns (pending: seq<string>)
    ensures pending == CheckList(dir, remote)
  {
    match dir
    case FsError =>
      pending := [];
    case Entries(files) =>
      var index := IndexDirectory(files);
      pending := FilterRemote(index, remote);
  }

  /** At most one file is the last one indexed under a key. */
  lemma LastForUnique(files: seq<FileInfo>, key: string, i: int, j: int)
    requires LastFor(files, key, i) && LastFor(files, key, j)
    ensures i == j
  {
  }

  /** A local copy carrying a `[tag]` prefix that renames cleanly satisfies
      the remote entry it names, as long as no later file of the listing is
      indexed under the same package. */
  lemma TaggedCopyUpToDate(files: seq<FileInfo>, i: int, tag: string, entry: string, remote: seq<string>)
    requires ']' !in tag && entry != ""
    requires 0 <= i < |files| && files[i] == FileInfo("[" + tag + "]" + entry, false, true)
    requires forall j :: i < j < |files| ==> !(Indexed(files[j]) && Key(files[j]) == PkgName(entry))
    ensures entry !in CheckList(Entries(files), remote)
  {
    var index, key := BuildIndex(files), PkgName(entry);
    StdNameStripsTag(tag, entry);
    assert Indexed(files[i]) && Key(files[i]) == key;
    assert LastFor(files, key, i);
    BuildIndexKeys(files);
    assert key in index;
    BuildIndexLastWins(files);
    var j :| LastFor(files, key, j) && index[key] == StdName(files[j].name);
    LastForUnique(files, key, i, j);
    assert UpToDate(index, entry);
    PendingSpec(index, remote);
  }

  /** A tagged local copy that cannot be renamed is not indexed, so the remote
      entry it names stays pending unless another file of the listing is
      indexed under exactly that standard name. */
  lemma UnrenamedCopyPending(files: seq<FileInfo>, i: int, tag: string, entry: string, remote: seq<string>)
    requires ']' !in tag && entry in remote
    requires 0 <= i < |files| && files[i] == FileInfo("[" + tag + "]" + entry, false, false)
    requires forall j :: 0 <= j < |files| && j != i && Indexed(files[j]) ==> StdName(files[j].name) != entry
    ensures !Indexed(files[i])
    ensures entry in CheckList(Entries(files), remote)
  {
    StdNameStripsTag(tag, entry);
    assert files[i].name != entry by {
      assert |files[i].name| > |entry|;
    }
  }
}
